=== FILE: README.md ===
# Account and session lifecycle of the user-account backend

A Dafny model of the two services at the centre of the backend:
`UsersService` (account creation, lookups, partial updates, deletion, the
stored refresh-token digest, the revoked-token ledger, the CPF/CNPJ tax-id
check) and `AuthService` (credential validation, login, refresh, logout).

The database is an immutable `Store` (`entities.dfy`): a map from user id to
user row, a set of address rows each owned by one user, the revoked-token
ledger as an append-only sequence, and a counter standing for the database's
key generator. `Valid` is the integrity the database itself enforces (keys
agree with rows, unique `email` column, every address refers to an existing
user); every operation keeps it. Each service operation is a pure function of
the store. Operations that can fail return a `Result` (`Ok` or one of
`Conflict`, `NotFound`, `Unauthorized`, `QueryFailed`), carrying the next
store when they write. `SaveRefreshToken`, `RevokeRefreshToken`, `Login` and
`Logout` cannot fail: they return the next store (with the token pair, for
`Login`).
`Session.Step` serves one client request with those operations and
`Session.Run` serves a sequence of them; the lifecycle properties (a revoked
token never refreshes, the ledger only grows, refresh does not rotate) are
lemmas over runs.

External primitives are abstract:

- bcrypt (`hasher.dfy`): `Hash(secret, salt)` is a digest that remembers its
  secret; `Matches(candidate, digest)` holds exactly when the candidate is that
  secret. The random salt of each call is a parameter. A password column that
  holds a string that is not a digest (an update can write one) never matches.
- JWT signing (`tokens.dfy`): a `Signed` token carries its claims
  (`sub` = user id, `username` = email), its lifetime (the JWT module's
  default, or `Days(7)` for refresh tokens) and the clock value it was signed
  at; `Unsigned(text)` is any other string a client presents. The clock is a
  parameter of each request.

Files: `outcomes.dfy` (errors and results), `hasher.dfy`, `tokens.dfy`,
`entities.dfy` (rows, store, integrity), `tax_id.dfy` (the CPF/CNPJ format),
`users_service.dfy`, `auth_service.dfy`, `session.dfy` (requests and runs).

Behaviours of the code worth noting:

- a badly formatted tax id raises `Conflict` ("Invalid CPF or CNPJ format"),
  not a bad-request error;
- `createUser` checks neither a password confirmation nor the tax id; the
  tax-id column is not unique, so two users may hold the same tax id;
- `refreshToken` never verifies the presented token's signature, claims or
  expiry: only the ledger and the stored digest decide, so a refresh token
  keeps working after its seven days (`RefreshToken`, `RefreshIsRepeatable`).
  In the model it stops when it is logged out or when a newer login, at a
  different clock value, replaces the digest; with the real bcrypt, which reads only the first 72 bytes of its
  input, a newer login does not stop an older token (see "## Left out");
- `logout` does not clear the stored digest; after logout, the ledger record
  is all that stops the token;
- refreshing for an unknown user id raises `NotFound` (from `findById`), not
  `Unauthorized`; the `!user` branches of `validateRefreshToken` and
  `updateUser` are unreachable;
- `updateUser` merges a partial object as is, so a password in it is stored
  as given, not hashed: unless it is itself a bcrypt digest, no password
  verifies against it any more; if it is a digest of some secret, that secret
  logs in (`Merge`, `UpdateUser`, `UpdatedPasswordDecidesLogin`);
  an update onto another user's email is refused by the unique column
  (`QueryFailed`);
- `login` on a user id with no row still returns tokens: the update of the
  refresh-token column simply affects no row.

## Model

| member | source | states |
|---|---|---|
| UsersService.CreateUser | src/users/users.service.ts:29-62 | Conflict exactly when some user already holds the email, with nothing written; otherwise exactly one user is added under a fresh id, its password column is a digest that verifies the given password and nothing else (never the plaintext), no refresh digest is stored, the profile fields are the given ones, exactly one address is added and it is owned by the new user, the ledger is untouched, and the store stays valid |
| UsersService.SaveRefreshToken | src/users/users.service.ts:64-67 | only the refresh-token column of that user changes; afterwards its digest verifies exactly the given token, overwriting any previous one; every other row, the addresses and the ledger are unchanged; an unknown id changes nothing |
| UsersService.ValidateRefreshToken | src/users/users.service.ts:69-78 | NotFound exactly for an unknown id (raised by findById, never a false answer); false when no digest is stored; otherwise true iff the token matches the stored digest |
| UsersService.SaveThenValidate | src/users/users.service.ts:64-78 | after saving token t, validating candidate c answers exactly c == t, so an earlier token no longer validates |
| UsersService.RevokeRefreshToken | src/users/users.service.ts:80-85 | the ledger gains exactly one record, the token, at its end; the earlier records are kept unchanged and in place; users and addresses are untouched |
| UsersService.IsTokenRevoked | src/users/users.service.ts:87-92 | a plain membership test on the ledger, with no contract of its own; what it reports is stated by `UsersService.RevokeIsMonotone` (one revocation) and `Session.RevokedIffLoggedOut` (any run) |
| UsersService.RevokeIsMonotone | src/users/users.service.ts:80-92 | after revoking t, a token is reported revoked iff it is t or was revoked before: t is revoked and no earlier revocation is lost |
| UsersService.FindByEmail | src/users/users.service.ts:94-96 | nothing exactly when no user holds the email; otherwise the stored row holding it |
| UsersService.FindById | src/users/users.service.ts:98-104 | NotFound ("User not found") exactly when no row has the id; otherwise the row with that id |
| UsersService.Merge | src/users/users.service.ts:112 | the merge never changes the row's id or refresh digest, an empty patch leaves the row as it was, and a password in the patch is stored as given: a string that is not a digest lets no password verify, a digest string lets exactly its secret verify; without a password in the patch the same passwords verify as before |
| UsersService.MergeIsIdempotent | src/users/users.service.ts:112 | merging the same patch twice gives the row that merging it once gives |
| UsersService.UpdateUser | src/users/users.service.ts:106-115 | NotFound for an unknown id; QueryFailed exactly when the patch moves the email onto another user's; otherwise each field present in the patch overwrites the row's (a password as the string given, not hashed), each absent field and the refresh digest keep their value, other rows, addresses and ledger are unchanged, and the store stays valid |
| UsersService.UpdateIsIdempotent | src/users/users.service.ts:106-115 | applying the same patch a second time returns the same row and store |
| UsersService.DeleteUser | src/users/users.service.ts:117-123 | NotFound exactly when no row has the id; otherwise returns true, the row is gone, every other row is unchanged, the user's addresses are gone (cascade) and all others kept, the ledger is untouched |
| UsersService.DeleteThenGone | src/users/users.service.ts:98-123 | after a deletion the id is not found and a second deletion raises NotFound |
| UsersService.ValidateCpfOrCnpj | src/users/users.service.ts:129-146 | Conflict "Invalid CPF or CNPJ format" iff the value is not 11 or 14 ASCII digits; Conflict "CPF or CNPJ is already in use" iff it is well formed and some user holds it; true otherwise; never writes |
| TaxId.DigitRunIsAllDigits | src/users/users.service.ts:130-131 | the pattern `^[0-9]+$` matches exactly the non-empty strings of ASCII digits |
| TaxId.WellFormedExactly | src/users/users.service.ts:130-133 | the format check accepts exactly the strings of 11 or of 14 ASCII digits |
| TaxId.CpfExampleAccepted | src/users/users.service.ts:130 | "12345678901" passes the CPF format |
| TaxId.TwelveDigitsRefused | src/users/users.service.ts:130-135 | "123456789012" is neither CPF nor CNPJ shaped |
| TaxId.LetterRefused | src/users/users.service.ts:130-135 | "1234567890a" is refused although it has 11 characters |
| AuthService.ValidateUser | src/auth/auth.service.ts:13-20 | succeeds iff some user holds the email and the password verifies against its stored password; the result is that user's row without the password column; every failure is Unauthorized "Invalid email or password" |
| AuthService.FailuresAreIndistinguishable | src/auth/auth.service.ts:13-20 | an unknown email and a known email with a wrong password give identical responses (same error, same message), so the response is no oracle for whether the email exists; response timing is not modelled |
| AuthService.Login | src/auth/auth.service.ts:22-32 | access and refresh token are signed from the same payload (user id, email), the refresh token with a seven-day lifetime, both at the current clock, and they differ; only that user's refresh digest changes, now verifying exactly the new refresh token; ledger and addresses untouched |
| AuthService.LoginLeavesOneValidToken | src/auth/auth.service.ts:22-32 | after a login, a refresh token of that user validates iff it is the one just issued: at most one refresh token per user validates |
| AuthService.RefreshToken | src/auth/auth.service.ts:35-55 | a revoked token fails Unauthorized "revoked" even when it matches the stored digest; otherwise an unknown user id raises NotFound; a mismatch or a missing digest fails Unauthorized "Invalid refresh token"; success iff not revoked and the digest verifies, returning only an access token for that user's id and email |
| AuthService.RefreshIsRepeatable | src/auth/auth.service.ts:35-55 | a refresh that succeeds once succeeds again at any other time, with the same claims: nothing is rotated |
| AuthService.Logout | src/auth/auth.service.ts:57-59 | exactly one record, the token, is appended at the end of the ledger, whatever the token was and even if it was revoked already; afterwards a token is revoked iff it is this one or was revoked before; users and addresses are unchanged |
| AuthService.LogoutEndsRefresh | src/auth/auth.service.ts:35-59 | right after logout, refreshing with that token fails Unauthorized "revoked" for every user id |
| Session.Step | src/auth/auth.controller.ts:23-38 | serving a request keeps the store valid, leaves it unchanged when the request fails, and only a logout touches the ledger, and only by appending |
| Session.LedgerOnlyGrows | src/users/users.service.ts:80-85 | over any sequence of requests the ledger's earlier records stay in place: it is append-only |
| Session.RevokedIffLoggedOut | src/users/users.service.ts:80-92 | what `isTokenRevoked` reports after any run: a token is revoked at the end iff it was revoked at the start or some request of the run logged it out — no other request revokes a token, and none unrevokes one (with `UsersService.RevokeIsMonotone` for a single revocation) |
| Session.RevokedStaysRevoked | src/users/users.service.ts:80-92 | a revoked token stays revoked whatever requests follow |
| Session.LoggedOutTokenNeverRefreshes | src/auth/auth.service.ts:35-59 | after logout of a token, whatever requests follow, refreshing with it fails Unauthorized "revoked" and changes nothing |
| Session.RefreshDoesNotRotate | src/auth/auth.service.ts:49-54 | a successful refresh leaves the store (stored digest and ledger) unchanged and the same request succeeds again at any time |
| Session.FailedLoginIsUniform | src/auth/auth.controller.ts:23-27 | every failed login answers Unauthorized "Invalid email or password" and writes nothing |
| Session.RegisterThenLogIn | src/auth/auth.service.ts:13-32 | registering a new email and then logging in with the same password succeeds with two distinct tokens whose refresh token is for the new user and is the one its stored digest verifies |
| Session.SecondRegistrationConflicts | src/users/users.service.ts:38-43 | registering the same email a second time fails Conflict and leaves the store as the first registration left it |
| Session.UpdatedPasswordDecidesLogin | src/users/users.service.ts:106-115 | after an update that writes a password, logging in with the row's email succeeds iff the written string is a digest and the password is its secret: a non-digest string locks every password out |
| Session.NewLoginEndsOldSession | src/auth/auth.service.ts:22-47 | a second login of the same user at a different clock value makes the first session's refresh token stop validating, and refreshing with it fails Unauthorized, without any logout |

## Left out

- The email-deliverability check (`validateEmail` and the external verification service): an HTTP call to a third party, and its call in `createUser` is commented out.
- The HTTP controller's `register` route: it passes two strings where `createUser` takes a user object and an address object; the model serves registrations with `createUser`'s own inputs.
- Bearer-token verification of access tokens (the profile route and its guard) and JWT signatures: foreign library; tokens are abstract values.
- bcrypt internals (salting scheme, cost factor 10, constant-time comparison): a digest is abstract and verifies exactly its secret. This leaves out collisions and, above all, bcrypt's 72-byte input limit: every JWT signed for one email shares its first 72 bytes (header plus the start of the payload), so the real compare accepts any token signed for that user, including older refresh tokens and access tokens. Those 72 bytes depend only on the fixed header and the first 13 characters of the email (plus two bits of the 14th), so a refresh token signed for a *different* user whose email shares that prefix also matches, and `refreshToken(victimId, ownToken)` then signs an access token carrying the victim's id and email.
- AuthService.LoginLeavesOneValidToken: holds only under the exact-match digest; with bcrypt's 72-byte truncation every earlier refresh token and every access token of the user also validates after a login.
- Session.NewLoginEndsOldSession: holds only under the exact-match digest; with the real bcrypt the first session's refresh token still refreshes after a second login.
- UsersService.SaveThenValidate: holds only under the exact-match digest, for the same 72-byte reason; tokens that differ only after byte 72 validate alike in the service.
- AuthService.RefreshToken: "succeeds iff not revoked and the stored digest verifies the token" holds only under the exact-match digest; with bcrypt's 72-byte truncation a token of another user whose email shares the first 13 characters also verifies, so the real service can issue an access token for the wrong account.
- Session.LoggedOutTokenNeverRefreshes: speaks of the logged-out token only; with the real bcrypt, the access token of the same login (never revoked) also matches the stored digest and still refreshes.
- AuthService.Login: the access and refresh tokens differ only because the JWT module's default lifetime (`ModuleDefault`, configuration outside this model) is assumed not to be seven days; were it seven days, both signing calls would produce the same string. `Session.RegisterThenLogIn` rests on the same assumption.
- Response timing: `validateUser` runs the cost-10 bcrypt compare only for a known email, so the time of a failed login can tell an unknown email from a wrong password; the model compares responses only.
- User ids are modelled as well-formed keys (`nat`). The id column holds uuids, and a client may send any string as `userId`; for a string that is not a uuid the database rejects the query in `findById`, `updateUser` and `deleteUser` with a query error rather than NotFound, which the model does not represent.
- Timestamps: the ledger record's creation time and id, and token expiry clocks beyond the clock value stored in each signed token.
- Database concurrency: requests are served one at a time, so the race between two registrations of one email, settled by the unique column, is not modelled.
- Partial objects with keys the model does not list: an `id` or `refreshToken` passed to `createUser` or `updateUser`, keys set to `null`/`undefined`, and missing required fields; `NewUser` and `UserPatch` carry only the profile fields.
- The address service's `createOrUpdateAddress`: a single save; the only address creation modelled is the one inside `createUser`.
- Module and database configuration (the JWT module's default lifetime is the abstract `ModuleDefault`).

=== FILE: auth_service.dfy ===
/** AuthService: password login, token issuance, refresh and logout, built
    on UsersService over the same store. */
module AuthService {
  import opened Outcomes
  import opened Hasher
  import opened Tokens
  import opened Entities
  import opened UsersService

  const InvalidCredentials := "Invalid email or password"
  const TokenRevoked := "Refresh token has been revoked"
  const InvalidRefreshToken := "Invalid refresh token"

  /** The pair `login` returns. */
  datatype TokenPair = TokenPair(accessToken: Token, refreshToken: Token)

  /** Whether some user holds `email` and `password` verifies against that
      user's stored password. */
  predicate CredentialsMatch(st: Store, email: string, password: string) {
    exists id :: id in st.users && st.users[id].email == email
                 && CheckPassword(password, st.users[id].password)
  }

  /** validateUser: the matching user without its password column, or one
      and the same Unauthorized error whatever went wrong. */
  function ValidateUser(st: Store, email: string, password: string): (r: Result<Profile>)
    requires Valid(st)
    ensures r.Ok? <==> CredentialsMatch(st, email, password)
    ensures r.Err? ==> r.error == Unauthorized(InvalidCredentials)
    ensures r.Ok? ==> var p := r.value;
      && p.id in st.users
      && p.email == email
      && p == WithoutPassword(st.users[p.id])
  {
    match FindByEmail(st, email)
    case Some(user) =>
      if CheckPassword(password, user.password) then Ok(WithoutPassword(user))
      else Err(Unauthorized(InvalidCredentials))
    case None =>
      Err(Unauthorized(InvalidCredentials))
  }

  /** No oracle: an unknown email and a wrong password fail with the very
      same error, so a failed login tells nothing about which one it was. */
  lemma FailuresAreIndistinguishable(st: Store, email1: string, password1: string,
                                     email2: string, password2: string)
    requires Valid(st)
    requires !EmailTaken(st, email1)
    requires EmailTaken(st, email2) && !CredentialsMatch(st, email2, password2)
    ensures ValidateUser(st, email1, password1) == ValidateUser(st, email2, password2)
  {
  }

  /** login: sign an access token and a seven-day refresh token from one
      payload (email, id), store a digest of the refresh token on the user,
      and return both tokens. */
  function Login(st: Store, user: Profile, clock: nat, salt: nat): (r: (Store, TokenPair))
    ensures var (st', s) := r;
      && s.accessToken.Signed? && s.refreshToken.Signed?
      && s.accessToken.claims == Claims(user.id, user.email)
      && s.refreshToken.claims == s.accessToken.claims
      && s.accessToken.ttl == ModuleDefault
      && s.refreshToken.ttl == RefreshTtl
      && s.accessToken.issuedAt == clock && s.refreshToken.issuedAt == clock
      && s.accessToken != s.refreshToken
    ensures var (st', s) := r;
      && st'.ledger == st.ledger && st'.addresses == st.addresses
      && st'.users.Keys == st.users.Keys
      && (forall id :: id in st.users && id != user.id ==> st'.users[id] == st.users[id])
      && (Valid(st) ==> Valid(st'))
    ensures var (st', s) := r;
      user.id in st.users ==>
        && SameExceptRefreshToken(st.users[user.id], st'.users[user.id])
        && (forall t :: HoldsRefreshToken(st'.users[user.id], t) <==> t == s.refreshToken)
  {
    var payload := Claims(user.id, user.email);
    var accessToken := Sign(payload, ModuleDefault, clock);
    var refreshToken := Sign(payload, RefreshTtl, clock);
    (SaveRefreshToken(st, user.id, refreshToken, salt), TokenPair(accessToken, refreshToken))
  }

  /** One session per user: after a login exactly the refresh token it issued
      validates, and every earlier refresh token of that user does not. */
  lemma LoginLeavesOneValidToken(st: Store, user: Profile, clock: nat, salt: nat, candidate: Token)
    requires Valid(st) && user.id in st.users
    ensures var (st', s) := Login(st, user, clock, salt);
      ValidateRefreshToken(st', user.id, candidate) == Ok(candidate == s.refreshToken)
  {
  }

  /** refreshToken: a revoked token fails first; then validateRefreshToken
      decides (NotFound for an unknown id, Unauthorized for a mismatch or a
      user without a stored digest); otherwise a new access token is signed.
      Nothing is written, and the presented token's own claims, lifetime and
      age are never examined. */
  function RefreshToken(st: Store, userId: UserId, token: Token, clock: nat): (r: Result<Token>)
    requires Valid(st)
    ensures IsTokenRevoked(st, token) ==> r == Err(Unauthorized(TokenRevoked))
    ensures !IsTokenRevoked(st, token) && userId !in st.users ==> r == Err(NotFound(UserNotFound))
    ensures !IsTokenRevoked(st, token) && userId in st.users && !HoldsRefreshToken(st.users[userId], token)
            ==> r == Err(Unauthorized(InvalidRefreshToken))
    ensures r.Ok? <==>
      !IsTokenRevoked(st, token) && userId in st.users && HoldsRefreshToken(st.users[userId], token)
    ensures r.Ok? ==>
      && r.value.Signed?
      && r.value.claims == Claims(userId, st.users[userId].email)
      && r.value.ttl == ModuleDefault
  {
    if IsTokenRevoked(st, token) then
      Err(Unauthorized(TokenRevoked))
    else
      var isValid :- ValidateRefreshToken(st, userId, token);
      if !isValid then
        Err(Unauthorized(InvalidRefreshToken))
      else
        var user := FindById(st, userId).value;
        Ok(Sign(Claims(user.id, user.email), ModuleDefault, clock))
  }

  /** Refresh does not rotate: the outcome of a refresh is the same at any
      time, so a token that refreshed once keeps refreshing until something
      else changes the store. */
  lemma RefreshIsRepeatable(st: Store, userId: UserId, token: Token, clock1: nat, clock2: nat)
    requires Valid(st)
    requires RefreshToken(st, userId, token, clock1).Ok?
    ensures RefreshToken(st, userId, token, clock2).Ok?
    ensures RefreshToken(st, userId, token, clock2).value.claims
         == RefreshToken(st, userId, token, clock1).value.claims
  {
  }

  /** logout: record the token as revoked, whatever it is. */
  function Logout(st: Store, token: Token): (st': Store)
    ensures st'.users == st.users && st'.addresses == st.addresses && st'.nextId == st.nextId
    ensures Valid(st) ==> Valid(st')
    ensures st'.ledger == st.ledger + [token]
    ensures forall t :: IsTokenRevoked(st', t) <==> t == token || IsTokenRevoked(st, t)
  {
    RevokeRefreshToken(st, token)
  }

  /** After logout no refresh with that token succeeds, for any user id,
      even one whose stored digest the token matches. */
  lemma LogoutEndsRefresh(st: Store, token: Token, userId: UserId, clock: nat)
    requires Valid(st)
    ensures RefreshToken(Logout(st, token), userId, token, clock) == Err(Unauthorized(TokenRevoked))
  {
  }
}

=== FILE: entities.dfy ===
/** The three tables the services work on — users, addresses and the
    revoked-token ledger — and the integrity the database maintains over them. */
module Entities {
  import opened Outcomes
  import opened Hasher
  import opened Tokens

  /** Primary keys. The database generates them (uuids); the model draws
      them from a counter held in the store. */
  type UserId = nat
  type AddressId = nat

  datatype Date = Date(year: int, month: int, day: int)

  /** The value of the `password` column: normally a bcrypt digest, but a
      partial update can write any string into it. */
  datatype Credential = Hashed(digest: Digest<string>) | Plain(text: string)

  /** bcrypt.compare(password, column): a column that is not a bcrypt digest
      never matches. */
  predicate CheckPassword(password: string, stored: Credential) {
    stored.Hashed? && Matches(password, stored.digest)
  }

  /** A row of the user table; `refreshToken` is the digest of the user's
      current refresh token, absent while no session was ever opened. */
  datatype User = User(
    id: UserId,
    email: string,
    password: Credential,
    refreshToken: Option<Digest<Token>>,
    firstName: string,
    lastName: string,
    birthDate: Option<Date>,
    cpfOrCnpj: Option<string>,
    phoneNumber: Option<string>)

  /** What `validateUser` hands back: the row with the password column removed. */
  datatype Profile = Profile(
    id: UserId,
    email: string,
    refreshToken: Option<Digest<Token>>,
    firstName: string,
    lastName: string,
    birthDate: Option<Date>,
    cpfOrCnpj: Option<string>,
    phoneNumber: Option<string>)

  function WithoutPassword(u: User): Profile {
    Profile(u.id, u.email, u.refreshToken, u.firstName, u.lastName,
            u.birthDate, u.cpfOrCnpj, u.phoneNumber)
  }

  /** The user fields `createUser` receives; `password` is the plaintext. */
  datatype NewUser = NewUser(
    email: string,
    password: string,
    firstName: string,
    lastName: string,
    birthDate: Option<Date>,
    cpfOrCnpj: Option<string>,
    phoneNumber: Option<string>)

  /** The partial object `updateUser` merges into a row; `None` is an absent key.
      `password` is the string the client sent, as bcrypt will read it once it
      sits in the column: a well-formed digest of some secret, or any other
      string. */
  datatype UserPatch = UserPatch(
    email: Option<string>,
    password: Option<Credential>,
    firstName: Option<string>,
    lastName: Option<string>,
    birthDate: Option<Date>,
    cpfOrCnpj: Option<string>,
    phoneNumber: Option<string>)

  datatype AddressData = AddressData(
    postalCode: string,
    street: string,
    number: string,
    complement: Option<string>,
    neighborhood: string,
    city: string,
    state: string)

  /** A row of the address table, owned by the user `owner`. */
  datatype Address = Address(id: AddressId, owner: UserId, data: AddressData)

  /** The database: the user table keyed by id, the address table, the
      revoked-token ledger in insertion order, and the next unused key. */
  datatype Store = Store(
    users: map<UserId, User>,
    addresses: set<Address>,
    ledger: seq<Token>,
    nextId: nat)

  const Empty: Store := Store(map[], {}, [], 0)

  /** The integrity the database enforces: primary keys agree with the rows
      and were generated, the `email` column is unique, and every address
      refers to an existing user. */
  ghost predicate Valid(st: Store) {
    && (forall id :: id in st.users ==> st.users[id].id == id && id < st.nextId)
    && (forall i, j :: i in st.users && j in st.users && st.users[i].email == st.users[j].email ==> i == j)
    && (forall a :: a in st.addresses ==> a.owner in st.users && a.id < st.nextId)
  }

  /** Whether some user row holds `email`. */
  predicate EmailTaken(st: Store, email: string) {
    exists id :: id in st.users && st.users[id].email == email
  }

  /** The addresses `owner` owns. */
  function AddressesOf(st: Store, owner: UserId): set<Address> {
    set a | a in st.addresses && a.owner == owner
  }

  /** Whether `u`'s stored refresh-token digest was computed from `token`. */
  predicate HoldsRefreshToken(u: User, token: Token) {
    u.refreshToken.Some? && Matches(token, u.refreshToken.value)
  }

  /** `v` is `u` with at most the refresh-token column changed. */
  predicate SameExceptRefreshToken(u: User, v: User) {
    u.(refreshToken := v.refreshToken) == v
  }

  lemma EmptyIsValid()
    ensures Valid(Empty)
  {
  }
}

=== FILE: hasher.dfy ===
/** The salted one-way hash (bcrypt) the services use for passwords and
    refresh tokens, kept abstract: a digest remembers what it was computed
    from and with which salt, and comparison succeeds only for that secret. */
module Hasher {

  /** A bcrypt digest of `preimage` under `salt`. The preimage is part of the
      value only so that `Matches` can be defined; no service reads it. */
  datatype Digest<S> = Digest(preimage: S, salt: nat)

  /** bcrypt.compare: true iff `candidate` is the secret `d` was computed from. */
  predicate Matches<S(==)>(candidate: S, d: Digest<S>) {
    d.preimage == candidate
  }

  /** bcrypt.hash with cost 10; `salt` stands for the random salt of one call. */
  function Hash<S(==,!new)>(secret: S, salt: nat): (d: Digest<S>)
    ensures forall candidate :: Matches(candidate, d) <==> candidate == secret
  {
    Digest(secret, salt)
  }
}

=== FILE: outcomes.dfy ===
/** Error kinds the two services raise, and the failure-compatible wrappers
    every operation of the model returns. */
module Outcomes {

  /** One constructor per exception class the services throw, carrying the
      message text the service passes to it. */
  datatype Error =
    | Conflict(message: string)       // ConflictException
    | NotFound(message: string)       // NotFoundException
    | Unauthorized(message: string)   // UnauthorizedException
    | QueryFailed(message: string)    // the database refusing a write that breaks a unique column

  /** A value that may be absent: a nullable column or an absent key of a partial object. */
  datatype Option<+T> = None | Some(value: T)

  /** Either a value or the error an operation raised; usable with `:-`. */
  datatype Result<+T> = Ok(value: T) | Err(error: Error) {

    predicate IsFailure() {
      Err?
    }

    function PropagateFailure<U>(): Result<U>
      requires Err?
    {
      Err(error)
    }

    function Extract(): T
      requires Ok?
    {
      value
    }
  }
}

=== FILE: session.dfy ===
/** The account and session lifecycle as a state machine: each request is
    served by the services above against the current store, and a run is a
    sequence of requests served one after another. */
module Session {
  import opened Outcomes
  import opened Hasher
  import opened Tokens
  import opened Entities
  import opened UsersService
  import opened AuthService

  /** The requests a client can make. `LogIn` is the login route: validate
      the credentials, then open a session for the user found. */
  datatype Request =
    | Register(data: NewUser, address: AddressData)
    | LogIn(email: string, password: string)
    | Refresh(userId: UserId, token: Token)
    | LogOut(token: Token)
    | Update(userId: UserId, patch: UserPatch)
    | Delete(userId: UserId)
    | CheckTaxId(value: string)

  /** What the outside world supplies to one request: the clock tokens are
      signed at, and the random salt bcrypt draws. */
  datatype Env = Env(clock: nat, salt: nat)

  datatype Response =
    | Registered(user: User)
    | LoggedIn(session: TokenPair)
    | Refreshed(accessToken: Token)
    | LoggedOut
    | Updated(user: User)
    | Deleted(deleted: bool)
    | TaxIdAccepted(accepted: bool)
    | Failed(error: Error)

  /** `b`'s ledger extends `a`'s: records are only ever appended. */
  predicate LedgerExtends(a: Store, b: Store) {
    |a.ledger| <= |b.ledger| && b.ledger[..|a.ledger|] == a.ledger
  }

  /** Serve one request. A failed request leaves the store as it was. */
  function Step(st: Store, req: Request, env: Env): (r: (Store, Response))
    requires Valid(st)
    ensures Valid(r.0)
    ensures r.1.Failed? ==> r.0 == st
    ensures LedgerExtends(st, r.0)
    ensures !req.LogOut? ==> r.0.ledger == st.ledger
  {
    match req
    case Register(data, address) =>
      (match CreateUser(st, data, address, env.salt)
      case Ok((st', user)) => (st', Registered(user))
      case Err(e) => (st, Failed(e)))
    case LogIn(email, password) =>
      (match ValidateUser(st, email, password)
      case Ok(profile) =>
        var (st', s) := Login(st, profile, env.clock, env.salt);
        (st', LoggedIn(s))
      case Err(e) => (st, Failed(e)))
    case Refresh(userId, token) =>
      (match RefreshToken(st, userId, token, env.clock)
      case Ok(access) => (st, Refreshed(access))
      case Err(e) => (st, Failed(e)))
    case LogOut(token) =>
      (Logout(st, token), LoggedOut)
    case Update(userId, patch) =>
      (match UpdateUser(st, userId, patch)
      case Ok((st', user)) => (st', Updated(user))
      case Err(e) => (st, Failed(e)))
    case Delete(userId) =>
      (match DeleteUser(st, userId)
      case Ok((st', deleted)) => (st', Deleted(deleted))
      case Err(e) => (st, Failed(e)))
    case CheckTaxId(value) =>
      (match ValidateCpfOrCnpj(st, value)
      case Ok(accepted) => (st, TaxIdAccepted(accepted))
      case Err(e) => (st, Failed(e)))
  }

  /** Serve `trace` in order, starting from `st`; the store after the last request. */
  function Run(st: Store, trace: seq<(Request, Env)>): (st': Store)
    requires Valid(st)
    ensures Valid(st')
    decreases |trace|
  {
    if trace == [] then st
    else Run(Step(st, trace[0].0, trace[0].1).0, trace[1..])
  }

  /** The ledger is append-only across any run: no record is ever removed or altered. */
  lemma {:induction false} LedgerOnlyGrows(st: Store, trace: seq<(Request, Env)>)
    requires Valid(st)
    ensures LedgerExtends(st, Run(st, trace))
    decreases |trace|
  {
    if trace != [] {
      var next := Step(st, trace[0].0, trace[0].1).0;
      LedgerOnlyGrows(next, trace[1..]);
      var last := Run(next, trace[1..]);
      assert last.ledger[..|next.ledger|][..|st.ledger|] == last.ledger[..|st.ledger|];
    }
  }

  /** Once revoked, always revoked. */
  lemma RevokedStaysRevoked(st: Store, trace: seq<(Request, Env)>, token: Token)
    requires Valid(st) && IsTokenRevoked(st, token)
    ensures IsTokenRevoked(Run(st, trace), token)
  {
    LedgerOnlyGrows(st, trace);
    var i :| 0 <= i < |st.ledger| && st.ledger[i] == token;
    assert Run(st, trace).ledger[i] == token;
  }

  /** One request revokes `token` iff it was revoked already or the request
      is its logout. */
  lemma StepRevokes(st: Store, req: Request, env: Env, token: Token)
    requires Valid(st)
    ensures IsTokenRevoked(Step(st, req, env).0, token)
        <==> IsTokenRevoked(st, token) || req == LogOut(token)
  {
  }

  /** Over any run, a token is revoked at the end exactly when it was revoked
      at the start or the run logged it out: nothing else revokes a token,
      and nothing unrevokes one. */
  lemma {:induction false} RevokedIffLoggedOut(st: Store, trace: seq<(Request, Env)>, token: Token)
    requires Valid(st)
    ensures IsTokenRevoked(Run(st, trace), token)
        <==> IsTokenRevoked(st, token) || exists k :: 0 <= k < |trace| && trace[k].0 == LogOut(token)
    decreases |trace|
  {
    if trace != [] {
      var next := Step(st, trace[0].0, trace[0].1).0;
      StepRevokes(st, trace[0].0, trace[0].1, token);
      RevokedIffLoggedOut(next, trace[1..], token);
      if exists k :: 0 <= k < |trace[1..]| && trace[1..][k].0 == LogOut(token) {
        var k :| 0 <= k < |trace[1..]| && trace[1..][k].0 == LogOut(token);
        assert trace[k + 1].0 == LogOut(token);
      }
      if exists k :: 0 <= k < |trace| && trace[k].0 == LogOut(token) {
        var k :| 0 <= k < |trace| && trace[k].0 == LogOut(token);
        if k > 0 {
          assert trace[1..][k - 1].0 == LogOut(token);
        }
      }
    }
  }

  /** After logging a token out, whatever happens next, a refresh with that
      token fails as revoked and changes nothing. */
  lemma LoggedOutTokenNeverRefreshes(st: Store, token: Token, out: Env,
                                     trace: seq<(Request, Env)>, userId: UserId, env: Env)
    requires Valid(st)
    ensures var later := Run(Step(st, LogOut(token), out).0, trace);
      Step(later, Refresh(userId, token), env) == (later, Failed(Unauthorized(TokenRevoked)))
  {
    var afterLogout := Step(st, LogOut(token), out).0;
    assert IsTokenRevoked(afterLogout, token);
    RevokedStaysRevoked(afterLogout, trace, token);
  }

  /** Refresh never rotates: it writes nothing, so a successful refresh can
      be repeated with the same token, at any later time, with success. */
  lemma RefreshDoesNotRotate(st: Store, userId: UserId, token: Token, env1: Env, env2: Env)
    requires Valid(st)
    requires Step(st, Refresh(userId, token), env1).1.Refreshed?
    ensures Step(st, Refresh(userId, token), env1).0 == st
    ensures Step(st, Refresh(userId, token), env2).1.Refreshed?
  {
  }

  /** A failed login changes nothing and always answers the same error. */
  lemma FailedLoginIsUniform(st: Store, email: string, password: string, env: Env)
    requires Valid(st)
    requires !Step(st, LogIn(email, password), env).1.LoggedIn?
    ensures Step(st, LogIn(email, password), env) == (st, Failed(Unauthorized(InvalidCredentials)))
  {
  }

  /** Registering and then logging in with the same credentials opens a
      session: two different tokens, of which the refresh token is the one
      the new user's stored digest verifies. */
  lemma RegisterThenLogIn(st: Store, data: NewUser, address: AddressData, env1: Env, env2: Env)
    requires Valid(st) && !EmailTaken(st, data.email)
    ensures var (st1, reg) := Step(st, Register(data, address), env1);
      && reg.Registered?
      && var (st2, resp) := Step(st1, LogIn(data.email, data.password), env2);
      && resp.LoggedIn?
      && resp.session.accessToken != resp.session.refreshToken
      && resp.session.refreshToken.claims == Claims(reg.user.id, data.email)
      && HoldsRefreshToken(st2.users[reg.user.id], resp.session.refreshToken)
  {
  }

  /** Registering one email twice: the second registration fails with
      Conflict and leaves the store as the first one left it. */
  lemma SecondRegistrationConflicts(st: Store, first: NewUser, second: NewUser,
                                    a1: AddressData, a2: AddressData, env1: Env, env2: Env)
    requires Valid(st) && !EmailTaken(st, first.email)
    requires second.email == first.email
    ensures var (st1, reg) := Step(st, Register(first, a1), env1);
      && reg.Registered?
      && Step(st1, Register(second, a2), env2) == (st1, Failed(Conflict(EmailInUse)))
  {
  }

  /** After an update that writes a password, the stored string alone decides
      who logs in: a digest lets exactly its secret in, any other string lets
      nobody in. */
  lemma UpdatedPasswordDecidesLogin(st: Store, id: UserId, patch: UserPatch,
                                    password: string, env1: Env, env2: Env)
    requires Valid(st)
    requires Step(st, Update(id, patch), env1).1.Updated? && patch.password.Some?
    ensures var (st1, resp) := Step(st, Update(id, patch), env1);
      Step(st1, LogIn(resp.user.email, password), env2).1.LoggedIn?
      <==> patch.password.value.Hashed? && password == patch.password.value.digest.preimage
  {
    var (st1, resp) := Step(st, Update(id, patch), env1);
    assert st1.users[id] == resp.user;
    if CredentialsMatch(st1, resp.user.email, password) {
      var other :| other in st1.users && st1.users[other].email == resp.user.email
                   && CheckPassword(password, st1.users[other].password);
      assert other == id;
    }
  }

  /** A second login of the same user, at a different clock value, ends the
      first session's refresh token without any logout (at the same clock the
      same token would be signed again): the stored digest no longer verifies it, so
      refreshing with it fails Unauthorized. */
  lemma NewLoginEndsOldSession(st: Store, email: string, password: string,
                               env1: Env, env2: Env, env3: Env)
    requires Valid(st)
    requires Step(st, LogIn(email, password), env1).1.LoggedIn?
    requires env1.clock != env2.clock
    ensures var (st1, first) := Step(st, LogIn(email, password), env1);
      var (st2, second) := Step(st1, LogIn(email, password), env2);
      var userId := first.session.refreshToken.claims.sub;
      && second.LoggedIn?
      && ValidateRefreshToken(st2, userId, first.session.refreshToken) == Ok(false)
      && Step(st2, Refresh(userId, first.session.refreshToken), env3).1.Failed?
      && Step(st2, Refresh(userId, first.session.refreshToken), env3).1.error.Unauthorized?
  {
  }
}

=== FILE: tax_id.dfy ===
/** The format half of `validateCpfOrCnpj`: a Brazilian individual tax id
    (CPF) is 11 decimal digits, a company tax id (CNPJ) 14. */
module TaxId {

  predicate IsDigit(c: char) {
    '0' <= c <= '9'
  }

  /** The regular expression `^[0-9]+$`, read as a matcher: one digit, then
      either the end of the input or another match of the same expression. */
  predicate MatchesDigitRun(s: string)
    decreases |s|
  {
    |s| > 0 && IsDigit(s[0]) && (|s| == 1 || MatchesDigitRun(s[1..]))
  }

  /** `isCpf` and `isCnpj` of `validateCpfOrCnpj`. */
  predicate IsCpf(s: string) {
    |s| == 11 && MatchesDigitRun(s)
  }

  predicate IsCnpj(s: string) {
    |s| == 14 && MatchesDigitRun(s)
  }

  /** The format check as a whole: the negation of the guard that raises. */
  predicate WellFormed(s: string) {
    IsCpf(s) || IsCnpj(s)
  }

  /** Every character of `s` is an ASCII digit. */
  predicate AllDigits(s: string) {
    forall i :: 0 <= i < |s| ==> IsDigit(s[i])
  }

  /** The matcher accepts exactly the non-empty all-digit strings. */
  lemma {:induction false} DigitRunIsAllDigits(s: string)
    ensures MatchesDigitRun(s) <==> |s| > 0 && AllDigits(s)
    decreases |s|
  {
    if |s| > 1 {
      DigitRunIsAllDigits(s[1..]);
      assert forall i :: 1 <= i < |s| ==> s[i] == s[1..][i - 1];
    }
  }

  /** The accepted tax ids are exactly the strings of 11 or 14 ASCII digits. */
  lemma WellFormedExactly(s: string)
    ensures WellFormed(s) <==> (|s| == 11 || |s| == 14) && AllDigits(s)
  {
    DigitRunIsAllDigits(s);
  }

  /** An 11-digit id is accepted as a CPF. */
  lemma CpfExampleAccepted()
    ensures WellFormed("12345678901")
  {
  }

  /** Twelve digits are neither a CPF nor a CNPJ. */
  lemma TwelveDigitsRefused()
    ensures !WellFormed("123456789012")
  {
  }

  /** A letter among eleven characters is refused. */
  lemma LetterRefused()
    ensures !WellFormed("1234567890a")
  {
  }
}

=== FILE: tokens.dfy ===
/** Signed tokens (JWT), kept abstract: a token carries its claims, its
    time-to-live and the moment it was signed. */
module Tokens {

  /** The payload both services sign: `sub` is the user id, `username` the email. */
  datatype Claims = Claims(sub: nat, username: string)

  /** `ModuleDefault` is the expiry configured on the JWT module (not part of
      this model); `Days(n)` is an explicit `expiresIn` of n days. */
  datatype Ttl = ModuleDefault | Days(days: nat)

  /** The `expiresIn: '7d'` of the refresh token. */
  const RefreshTtl: Ttl := Days(7)

  /** A token presented by a client: either one the signer produced, or any
      other string (`Unsigned`), which the services store and compare as is. */
  datatype Token =
    | Signed(claims: Claims, ttl: Ttl, issuedAt: nat)
    | Unsigned(text: string)

  /** jwtService.sign(payload, { expiresIn }) at time `issuedAt`. */
  function Sign(claims: Claims, ttl: Ttl, issuedAt: nat): Token {
    Signed(claims, ttl, issuedAt)
  }
}

=== FILE: users_service.dfy ===
/** UsersService: account creation, lookups, partial updates, deletion,
    the stored refresh-token digest, the revoked-token ledger and the
    tax-id check. Every operation is a function from the store to a result
    (and, when it writes, the next store). */
module UsersService {
  import opened Outcomes
  import opened Hasher
  import opened Tokens
  import opened Entities
  import TaxId

  const EmailInUse := "Email is already in use"
  const UserNotFound := "User not found"
  const InvalidTaxIdFormat := "Invalid CPF or CNPJ format"
  const TaxIdInUse := "CPF or CNPJ is already in use"
  /** Stands in for the database's own message, which names the generated
      unique constraint of the email column. */
  const DuplicateEmail := "duplicate key value violates unique constraint on email"

  /** findByEmail: the row holding `email`, if any. */
  function FindByEmail(st: Store, email: string): (r: Option<User>)
    requires Valid(st)
    ensures r.None? <==> !EmailTaken(st, email)
    ensures r.Some? ==> r.value.id in st.users && st.users[r.value.id] == r.value
    ensures r.Some? ==> r.value.email == email
  {
    if EmailTaken(st, email) then
      var id :| id in st.users && st.users[id].email == email;
      Some(st.users[id])
    else
      None
  }

  /** findById: the row with key `id`, or NotFound. */
  function FindById(st: Store, id: UserId): (r: Result<User>)
    requires Valid(st)
    ensures r.Err? <==> id !in st.users
    ensures r.Err? ==> r.error == NotFound(UserNotFound)
    ensures r.Ok? ==> r.value.id == id && r.value in st.users.Values
  {
    if id in st.users then Ok(st.users[id]) else Err(NotFound(UserNotFound))
  }

  /** createUser: refuse an email already in use; otherwise store the user
      with a bcrypt digest of the password, and one address owned by it. */
  function CreateUser(st: Store, data: NewUser, address: AddressData, salt: nat): (r: Result<(Store, User)>)
    requires Valid(st)
    ensures r.Err? <==> EmailTaken(st, data.email)
    ensures r.Err? ==> r.error == Conflict(EmailInUse)
    ensures r.Ok? ==> Valid(r.value.0)
    ensures r.Ok? ==> var (st', u) := r.value;
      && u.id !in st.users
      && st'.users == st.users[u.id := u]
      && st'.ledger == st.ledger
    ensures r.Ok? ==> var u := r.value.1;
      && u.email == data.email
      && u.password.Hashed?
      && (forall p :: CheckPassword(p, u.password) <==> p == data.password)
      && u.refreshToken.None?
      && u.firstName == data.firstName && u.lastName == data.lastName
      && u.birthDate == data.birthDate && u.cpfOrCnpj == data.cpfOrCnpj
      && u.phoneNumber == data.phoneNumber
    ensures r.Ok? ==> var (st', u) := r.value;
      && st.addresses <= st'.addresses
      && |st'.addresses - st.addresses| == 1
      && |AddressesOf(st', u.id)| == 1
      && (forall a :: a in AddressesOf(st', u.id) ==> a.data == address)
  {
    if EmailTaken(st, data.email) then
      Err(Conflict(EmailInUse))
    else
      var user := User(st.nextId, data.email, Hashed(Hash(data.password, salt)), None,
                       data.firstName, data.lastName, data.birthDate, data.cpfOrCnpj,
                       data.phoneNumber);
      var addr := Address(st.nextId + 1, user.id, address);
      var st' := Store(st.users[user.id := user], st.addresses + {addr}, st.ledger, st.nextId + 2);
      assert addr !in st.addresses;
      assert st'.addresses - st.addresses == {addr};
      assert AddressesOf(st', user.id) == {addr};
      Ok((st', user))
  }

  /** saveRefreshToken: overwrite the user's stored digest with a digest of
      `token`; an update of an unknown id changes no row. */
  function SaveRefreshToken(st: Store, userId: UserId, token: Token, salt: nat): (st': Store)
    ensures Valid(st) ==> Valid(st')
    ensures st'.addresses == st.addresses && st'.ledger == st.ledger && st'.nextId == st.nextId
    ensures userId !in st.users ==> st' == st
    ensures st'.users.Keys == st.users.Keys
    ensures forall id :: id in st.users && id != userId ==> st'.users[id] == st.users[id]
    ensures userId in st.users ==>
      && SameExceptRefreshToken(st.users[userId], st'.users[userId])
      && (forall t :: HoldsRefreshToken(st'.users[userId], t) <==> t == token)
  {
    if userId in st.users then
      st.(users := st.users[userId := st.users[userId].(refreshToken := Some(Hash(token, salt)))])
    else
      st
  }

  /** validateRefreshToken: NotFound for an unknown id (raised by findById,
      so the service's `!user` branch never runs); false without a stored
      digest; otherwise whether `token` matches it. */
  function ValidateRefreshToken(st: Store, userId: UserId, token: Token): (r: Result<bool>)
    requires Valid(st)
    ensures r.Err? <==> userId !in st.users
    ensures r.Err? ==> r.error == NotFound(UserNotFound)
    ensures r.Ok? && st.users[userId].refreshToken.None? ==> !r.value
    ensures r.Ok? ==> (r.value <==> HoldsRefreshToken(st.users[userId], token))
  {
    var user :- FindById(st, userId);
    if user.refreshToken.None? then Ok(false)
    else Ok(Matches(token, user.refreshToken.value))
  }

  /** revokeRefreshToken: append a record of `token` to the ledger. */
  function RevokeRefreshToken(st: Store, token: Token): (st': Store)
    ensures Valid(st) ==> Valid(st')
    ensures st'.users == st.users && st'.addresses == st.addresses && st'.nextId == st.nextId
    ensures |st'.ledger| == |st.ledger| + 1
    ensures st'.ledger[..|st.ledger|] == st.ledger
    ensures st'.ledger[|st.ledger|] == token
  {
    st.(ledger := st.ledger + [token])
  }

  /** isTokenRevoked: whether some ledger record holds `token`. */
  predicate IsTokenRevoked(st: Store, token: Token) {
    token in st.ledger
  }

  /** A revoked token is revoked for good: revoking another token keeps it,
      and the token just revoked is revoked. */
  lemma RevokeIsMonotone(st: Store, token: Token, other: Token)
    ensures IsTokenRevoked(RevokeRefreshToken(st, token), other)
        <==> other == token || IsTokenRevoked(st, other)
  {
  }

  /** Saving a token and then validating a candidate answers exactly whether
      the candidate is the token saved: the previous token no longer validates. */
  lemma SaveThenValidate(st: Store, userId: UserId, token: Token, salt: nat, candidate: Token)
    requires Valid(st) && userId in st.users
    ensures ValidateRefreshToken(SaveRefreshToken(st, userId, token, salt), userId, candidate)
         == Ok(candidate == token)
  {
  }

  /** The update `Object.assign` performs: present keys overwrite, absent keys
      keep the row's value. A password in the patch is written as given, not
      hashed: a string that is not a digest then verifies no password, while a
      digest string verifies the secret it was computed from. */
  function Merge(u: User, patch: UserPatch): (v: User)
    ensures v.id == u.id && v.refreshToken == u.refreshToken
    ensures patch == UserPatch(None, None, None, None, None, None, None) ==> v == u
    ensures patch.password.Some? && patch.password.value.Plain? ==>
      forall p :: !CheckPassword(p, v.password)
    ensures patch.password.Some? && patch.password.value.Hashed? ==>
      forall p :: CheckPassword(p, v.password) <==> p == patch.password.value.digest.preimage
    ensures patch.password.None? ==>
      forall p :: CheckPassword(p, v.password) <==> CheckPassword(p, u.password)
  {
    u.(
      email := if patch.email.Some? then patch.email.value else u.email,
      password := if patch.password.Some? then patch.password.value else u.password,
      firstName := if patch.firstName.Some? then patch.firstName.value else u.firstName,
      lastName := if patch.lastName.Some? then patch.lastName.value else u.lastName,
      birthDate := if patch.birthDate.Some? then patch.birthDate else u.birthDate,
      cpfOrCnpj := if patch.cpfOrCnpj.Some? then patch.cpfOrCnpj else u.cpfOrCnpj,
      phoneNumber := if patch.phoneNumber.Some? then patch.phoneNumber else u.phoneNumber)
  }

  /** Merging the same patch twice is merging it once. */
  lemma MergeIsIdempotent(u: User, patch: UserPatch)
    ensures Merge(Merge(u, patch), patch) == Merge(u, patch)
  {
  }

  /** Whether another row than `id` already holds `email`. */
  predicate EmailHeldByOther(st: Store, id: UserId, email: string) {
    exists other :: other in st.users && other != id && st.users[other].email == email
  }

  /** updateUser: NotFound for an unknown id; the unique email column refuses
      a merge onto another user's email; otherwise the merged row is saved. */
  function UpdateUser(st: Store, id: UserId, patch: UserPatch): (r: Result<(Store, User)>)
    requires Valid(st)
    ensures r.Err? && id !in st.users ==> r.error == NotFound(UserNotFound)
    ensures r.Err? && id in st.users ==> r.error == QueryFailed(DuplicateEmail)
    ensures r.Err? <==>
      (id !in st.users || (patch.email.Some? && EmailHeldByOther(st, id, patch.email.value)))
    ensures r.Ok? ==> var (st', u) := r.value;
      && Valid(st')
      && u.id == id && st'.users == st.users[id := u]
      && st'.addresses == st.addresses && st'.ledger == st.ledger
    ensures r.Ok? ==> var (u, v) := (st.users[id], r.value.1);
      && (patch.email.Some? ==> v.email == patch.email.value)
      && (patch.email.None? ==> v.email == u.email)
      && (patch.password.Some? ==> v.password == patch.password.value)
      && (patch.password.None? ==> v.password == u.password)
      && (patch.firstName.Some? ==> v.firstName == patch.firstName.value)
      && (patch.firstName.None? ==> v.firstName == u.firstName)
      && (patch.lastName.Some? ==> v.lastName == patch.lastName.value)
      && (patch.lastName.None? ==> v.lastName == u.lastName)
      && (patch.birthDate.Some? ==> v.birthDate == patch.birthDate)
      && (patch.birthDate.None? ==> v.birthDate == u.birthDate)
      && (patch.cpfOrCnpj.Some? ==> v.cpfOrCnpj == patch.cpfOrCnpj)
      && (patch.cpfOrCnpj.None? ==> v.cpfOrCnpj == u.cpfOrCnpj)
      && (patch.phoneNumber.Some? ==> v.phoneNumber == patch.phoneNumber)
      && (patch.phoneNumber.None? ==> v.phoneNumber == u.phoneNumber)
      && v.refreshToken == u.refreshToken
  {
    var user :- FindById(st, id);
    var merged := Merge(user, patch);
    if EmailHeldByOther(st, id, merged.email) then
      Err(QueryFailed(DuplicateEmail))
    else
      Ok((st.(users := st.users[id := merged]), merged))
  }

  /** Applying the same patch a second time changes nothing more. */
  lemma UpdateIsIdempotent(st: Store, id: UserId, patch: UserPatch)
    requires Valid(st)
    requires UpdateUser(st, id, patch).Ok?
    ensures var (st', u) := UpdateUser(st, id, patch).value;
      UpdateUser(st', id, patch) == Ok((st', u))
  {
    var (st', u) := UpdateUser(st, id, patch).value;
    assert Merge(u, patch) == u;
    assert st'.users[id := u] == st'.users;
  }

  /** deleteUser: NotFound when no row has key `id`; otherwise the row goes,
      its addresses go with it (cascade), and true is returned. */
  function DeleteUser(st: Store, id: UserId): (r: Result<(Store, bool)>)
    requires Valid(st)
    ensures r.Err? <==> id !in st.users
    ensures r.Err? ==> r.error == NotFound(UserNotFound)
    ensures r.Ok? ==> var (st', deleted) := r.value;
      && deleted
      && Valid(st')
      && st'.users.Keys == st.users.Keys - {id}
      && (forall other :: other in st'.users ==> st'.users[other] == st.users[other])
      && st'.addresses == st.addresses - AddressesOf(st, id)
      && AddressesOf(st', id) == {}
      && st'.ledger == st.ledger
  {
    if id !in st.users then
      Err(NotFound(UserNotFound))
    else
      var rest := set a | a in st.addresses && a.owner != id;
      Ok((Store(st.users - {id}, rest, st.ledger, st.nextId), true))
  }

  /** A deleted user cannot be found, nor deleted a second time. */
  lemma DeleteThenGone(st: Store, id: UserId)
    requires Valid(st) && id in st.users
    ensures var st' := DeleteUser(st, id).value.0;
      && FindById(st', id) == Err(NotFound(UserNotFound))
      && DeleteUser(st', id) == Err(NotFound(UserNotFound))
  {
  }

  /** Whether some row holds `value` in its tax-id column. */
  predicate TaxIdTaken(st: Store, value: string) {
    exists id :: id in st.users && st.users[id].cpfOrCnpj == Some(value)
  }

  /** validateCpfOrCnpj: Conflict for a malformed id, Conflict for an id
      another row holds, true otherwise; it reads the store only. */
  function ValidateCpfOrCnpj(st: Store, value: string): (r: Result<bool>)
    ensures r.Ok? ==> r.value
    ensures r == Err(Conflict(InvalidTaxIdFormat))
        <==> !((|value| == 11 || |value| == 14) && TaxId.AllDigits(value))
    ensures r == Err(Conflict(TaxIdInUse))
        <==> (|value| == 11 || |value| == 14) && TaxId.AllDigits(value) && TaxIdTaken(st, value)
    ensures r.Ok? <==> (|value| == 11 || |value| == 14) && TaxId.AllDigits(value) && !TaxIdTaken(st, value)
  {
    TaxId.WellFormedExactly(value);
    if !TaxId.IsCpf(value) && !TaxId.IsCnpj(value) then
      Err(Conflict(InvalidTaxIdFormat))
    else if TaxIdTaken(st, value) then
      Err(Conflict(TaxIdInUse))
    else
      Ok(true)
  }
}
